=== FILE: README.md ===
# gvm manager core, modelled in Dafny

gvm is a small version manager for Go and Python toolchains. Its core,
`manager/manager.go`, does four things:

- **Install.** Resolves a download URL from a compiled-in table keyed by
  language and operating system. Downloads the archive and extracts it into
  `~/.gvm/versions/<lang>/<version>`. A `.zip` URL goes to `Unzip` and
  anything else to `Untar`.
- **GenerateUseCommand.** Emits a shell statement that sets PATH. The
  selected version's binary directory goes first. Every old entry that is
  empty or mentions `~/.gvm` is dropped.
- **Unzip and Untar.** Walk the entries of an archive. Unzip refuses any
  entry whose joined path does not start with the cleaned destination
  followed by a separator. Untar applies no such check.
- **ListVersions.** Lists the directory names under
  `~/.gvm/versions/<lang>`. A missing directory gives an empty list.

The model is functional. The environment is passed in as parameters:

- whether a path exists;
- the directory listing;
- the HTTP response;
- the decoded archive entries;
- the home directory, GOOS, GOARCH and PATH.

The effect of an extraction is the sequence of directory and file writes it
makes. Path handling follows Go's `path/filepath` on a `/`-separated system.
`Clean` resolves segments with a stack, and `Join` cleans the joined
non-empty elements.

Modules:

- `Results`: Option and Result.
- `Text`: prefix, suffix, contains, split and join.
- `Paths`: Clean, Join and the Unzip containment test.
- `Layout`: base, versions and install directories.
- `Sources`: the download table and Install's decision.
- `Extract`: the Unzip and Untar loops, plus the corrected Untar.
- `Install`: the whole pipeline.
- `Use`: GenerateUseCommand.
- `Store`: ListVersions.

## Model

| member | source | states |
|---|---|---|
| Paths.CleanIdempotent | manager/manager.go:313 | Cleaning keeps rootedness and the resolved segments, so cleaning twice equals cleaning once |
| Paths.LexicalRender | manager/manager.go:313 | Printing a resolved segment stack and cutting it again gives back the same stack |
| Paths.JoinTwo | manager/manager.go:312 | `filepath.Join(dest, name)` keeps the destination's rootedness and resolves the name's segments on top of the destination's |
| Paths.JoinThree | manager/manager.go:84 | `filepath.Join(dir, a, b)` resolves the segments of `a` and then of `b` on top of those of `dir` |
| Paths.LeadingSeparatorIgnored | manager/manager.go:312 | An entry name with a leading `/` joins to the same path as without it: the leading `/` adds no escape, and the result depends only on the name's segments (a `..` among them can still leave the directory) |
| Paths.WithinIff | manager/manager.go:311-315 | Unzip's textual prefix test holds exactly when two things are true: the cleaned destination has at least one segment, and the joined path's segments strictly extend the destination's |
| Text.SplitJoin | manager/manager.go:231-243 | Splitting a joined list of separator-free entries gives the entries back |
| Text.JoinSplit | manager/manager.go:231-243 | Joining the pieces of a split gives the original string back |
| Sources.PlanInstall | manager/manager.go:84-112 | An existing install path means nothing to do. An unknown language or OS gives the matching error. Otherwise the plan downloads, and the extractor and temp-file pattern follow from the URL's suffix |
| Sources.ExtractorFor | manager/manager.go:139-148 | Only a URL ending in `.zip` goes to Unzip, and a URL ending in `.tar.gz` always goes to Untar |
| Sources.TempPatternFor | manager/manager.go:107-112 | The temp file is `*.zip` exactly when the URL goes to Unzip, and `*.tar.gz` exactly for a `.tar.gz` URL. It is `.tmp` for any other URL, which goes to Untar |
| Sources.PlanDownloadIff | manager/manager.go:85-98 | A download is planned exactly when the path is absent and the table has a template for the language on this OS |
| Sources.GoUrl | manager/manager.go:23-28 | The Go URL is `https://go.dev/dl/go<version>.<goos>-<goarch>` with `.zip` on Windows and `.tar.gz` elsewhere |
| Sources.PythonUrl | manager/manager.go:29-31 | The Python URL repeats the version, as the directory and in the file name, and ends in `-embed-amd64.zip` |
| Sources.OnlyWindowsUnzips | manager/manager.go:107-112 | For every supported language and OS, the download goes to Unzip with a `*.zip` temp file exactly on Windows. Everywhere else it goes to Untar with `*.tar.gz` |
| Sources.PythonOnlyOnWindows | manager/manager.go:95-98 | Python installs on any OS other than Windows fail with UnsupportedOS before any download |
| Extract.UnzipEntries | manager/manager.go:311-344 | The writes are one per entry, in archive order, up to the first refused entry. Every written path passed the test. The loop fails exactly when an entry was refused, and the error names that entry's joined path |
| Extract.Unzip | manager/manager.go:300-344 | An archive that cannot be opened fails with no writes. Every path written passed the containment test. For a readable archive the writes are those of its entries in order, up to the first refused one: all of them exactly when it succeeds, and otherwise IllegalPath names the refused entry's joined path |
| Extract.UnzipSucceedsIff | manager/manager.go:311-315 | Unzip succeeds exactly when every entry's joined path passes the test |
| Extract.UnzipStaysInside | manager/manager.go:311-315 | For an absolute destination, every path Unzip writes resolves strictly inside the destination |
| Extract.PlainNamePasses | manager/manager.go:312-313 | A name with a real segment and no `..` always passes, unless the destination cleans to `/` or `.` |
| Extract.UntarEntries | manager/manager.go:266-296 | Every write comes from some entry's joined name. Every directory and regular-file entry is written, wherever its name points. There are no more writes than entries |
| Extract.UntarAppend | manager/manager.go:266-296 | The tar loop treats entries independently: the writes for `a + b` are those for `a` followed by those for `b` |
| Extract.Untar | manager/manager.go:253-296 | A gzip header that cannot be read fails with no writes. Otherwise the extraction succeeds exactly when reading ends at end-of-file. Each write comes from some entry, every directory and regular-file entry is written, and there are no more writes than entries |
| Extract.UntarWritesOutsideDest | manager/manager.go:275-294 | A regular file named `../x` in `/d` is written to `/x`, a path Unzip's check refuses |
| Extract.UntarCheckedEntries | manager/manager.go:275 | Corrected tar loop. Every write passes Unzip's containment test, and the loop succeeds exactly when every entry passes it |
| Extract.UntarChecked | manager/manager.go:253-297 | Corrected Untar. A bad gzip header writes nothing, and every write passes the containment test |
| Extract.UntarCheckedAgrees | manager/manager.go:266-296 | On archives whose entries all pass the test, the corrected loop writes exactly what the original writes |
| Layout.BaseDir | manager/manager.go:34-41 | For a non-empty home, the base directory is non-empty, rooted like home, and resolves to home's segments followed by `.gvm` |
| Layout.VersionsDir | manager/manager.go:43-50 | For a non-empty home, the versions directory resolves to home's segments followed by `.gvm` and `versions` |
| Layout.VersionPath | manager/manager.go:84 | For a non-empty home, the version path resolves the language's and version's segments on top of `<home>/.gvm/versions` |
| Layout.VersionPathBelowBase | manager/manager.go:34-50 | With no `..` in language or version, the version path and its Go `bin` directory both resolve strictly below `~/.gvm` |
| Install.Dispatch | manager/manager.go:139-148 | A zip download writes only paths that pass the containment test. It succeeds exactly when the archive opens and every entry passes. A tar download succeeds exactly when gzip opens and reading ends at end-of-file. A readable zip or tar archive is extracted by its entry loop into the destination |
| Install.Install | manager/manager.go:78-152 | An existing install is skipped with no network access. The network is used exactly when the table supports the language and OS. A transport failure and a non-200 status each give their own error, with no writes. Nothing is written unless the reply's status was 200. After a 200 reply the writes are those of the extractor the URL's suffix chose, into the version path; the install succeeds exactly when that extractor does, and otherwise fails with ExtractFailed naming the extractor and its cause |
| Install.WindowsInstallsStayInside | manager/manager.go:139-142 | On Windows every install path is Unzip's, so every write passes the containment test for the install path |
| Install.UnixGoInstallsUntar | manager/manager.go:143-148 | On Linux and macOS a Go install writes exactly what Untar writes into the install path, and, when the gzip header reads, exactly what the unchecked tar entry loop writes there |
| Use.BinPath | manager/manager.go:220-228 | A binary directory exists exactly for Go and Python. Any other language gives UnrecognizedLanguage. For Go it resolves to the version path's segments followed by `go` and `bin`, with the same rootedness; for Python it is the version path itself |
| Use.GoBinSegments | manager/manager.go:222 | Joining `go` and `bin` onto a non-empty version path keeps its rootedness and appends exactly those two segments |
| Use.KeepUnmanaged | manager/manager.go:237-241 | The kept entries are exactly the old entries that are non-empty and do not mention the base directory, and there are no more of them than before |
| Use.KeepAppend | manager/manager.go:237-241 | The filter works entry by entry: filtering `a + b` gives the filtered `a` followed by the filtered `b` |
| Use.KeepIdempotent | manager/manager.go:237-241 | Filtering twice is the same as filtering once |
| Use.KeepIsSubsequence | manager/manager.go:237-241 | The kept entries appear in the original order, as a sub-sequence of the old entries |
| Use.ComposeReplaces | manager/manager.go:234-241 | Composing onto an earlier composed PATH whose first entry mentions the base directory replaces that entry and changes nothing else |
| Use.SplitComposed | manager/manager.go:231-243 | When no entry contains the list separator, splitting the emitted PATH gives back the composed entries |
| Use.SplitList | manager/manager.go:231 | An empty PATH has no entries. Otherwise there is at least one entry, no entry contains the list separator, and joining the entries with the separator gives the PATH back |
| Use.ComposeParts | manager/manager.go:234-241 | The new PATH entries start with the binary directory. Every later entry is a surviving old entry, every surviving old entry appears, and their old order is kept |
| Use.ComposePath | manager/manager.go:243 | The PATH value starts with the binary directory. When that directory holds no list separator, splitting the value gives back the composed entries |
| Use.ShellCommand | manager/manager.go:245-249 | The statement quotes the PATH value after a PowerShell or POSIX lead, so reading the text between the quotes gives the value back |
| Use.GenerateUseCommand | manager/manager.go:209-250 | An absent version path gives NotInstalled, checked before the language. Otherwise a command is produced exactly for Go and Python, and the PATH it assigns is the composed value for that version's binary directory, the current PATH and the base directory |
| Use.UseIsStable | manager/manager.go:209-250 | For an installed Go or Python version, take the PATH text between the quotes of the emitted statement, as it stands. Composing again on it for the same version emits the same statement. This holds when language and version have no `..` and no list separator appears in home, language or version |
| Use.BinPathUnderBase | manager/manager.go:220-238 | The Go and Python binary directories are non-empty and mention the base directory, so a later `use` filters them out |
| Store.DirNames | manager/manager.go:68-73 | The versions listed are exactly the names of the directory entries, and there are no more of them than entries |
| Store.ListVersions | manager/manager.go:59-74 | A missing directory lists nothing. Any other read error is an error. A readable directory gives exactly the names of its directory entries, in listing order |
| Store.DirNamesAppend | manager/manager.go:69-73 | The listing is read entry by entry: the names for `a + b` are those for `a` followed by those for `b` |
| Store.DirNamesAllDirs | manager/manager.go:69-73 | When every entry is a directory, every name is listed, in order |
| Store.DirNamesNoDirs | manager/manager.go:69-73 | A listing with no directories lists no versions |

## Left out

- The download itself is not modelled: HTTP, the progress bar, the temporary file and `io.Copy`. The HTTP exchange is a parameter giving a transport error, or a status and the body as each archive reader sees it.
- Filesystem failures are not modelled: failures of `MkdirAll`, `OpenFile`, `io.Copy` and `CreateTemp`, and the file modes. Each extraction records one write per directory or regular-file entry. The `MkdirAll` of the destination and of each parent directory is not recorded.
- gzip, tar and zip decoding is not modelled. An archive is the list of entries its reader yields, and a tar stream also records whether reading ended at end-of-file.
- `ListAvailableVersions` and `listPythonVersions` are not modelled. They fetch a web page and sort versions with an external library.
- `main.go`, the command-line front end, is not part of this model.
- `os.UserHomeDir` failing is not modelled. The home directory is a non-empty parameter.
- `runtime.GOOS`, `runtime.GOARCH` and the PATH variable are parameters, and so is the result of `os.Stat`.
- Only `/`-separated path semantics are modelled. Windows volume names and `\` separators are not, and neither is the quote handling of `filepath.SplitList` on Windows. On Windows the model differs in three ways: the `;` list separator, the PowerShell statement, and zip downloads. Extraction still uses `/` path semantics.
- Extract.Unzip, Paths.WithinIff, Extract.UnzipStaysInside and Install.WindowsInstallsStayInside describe the containment test under `/` path semantics. The table sends only Windows downloads to Unzip, and there `filepath.Join` and `filepath.Clean` also split at `\`. An entry name with `\` in it, such as `..\x`, is one plain segment in this model, but on Windows the join resolves it to the parent directory and the test refuses it. These properties are not claimed for such names on Windows.
- Store.ListVersions: the order of entries is whatever the listing parameter gives. `os.ReadDir` sorts by name, and that sorting is not modelled.
- Store.ListVersions: a missing directory and an empty one both give the empty list. The nil/empty slice distinction of Go is not kept.
- Extract.Untar: the error that ends a tar read early is a single ReadFailed, whatever the reader reported.
- Install.Install: the printed progress and success messages are not modelled.
- Use.UseIsStable: shell evaluation of the statement is not modelled. The program puts the PATH value between double quotes with nothing escaped. A shell would change, or fail to parse, an entry containing `"`, `$`, a backquote or `\`. The lemma reads the quoted text back as it stands.
- Store.ListVersions: the directory it reads, `<home>/.gvm/versions/<lang>`, is represented only by the listing parameter. The model does not compute that path.

## Findings

| source | as written | input that shows it | evidently intended | confidence | as-written member | corrected member |
|---|---|---|---|---|---|---|
| manager/manager.go:275 | Untar joins each header name onto the destination and writes there, with no containment test | A regular-file entry named `../x` extracted into `/d` is written to `/x` | Reject entries that resolve outside the destination, as Unzip does at lines 312-315 | not executed | Extract.UntarWritesOutsideDest | Extract.UntarChecked |

The corrected loop `Extract.UntarCheckedEntries` applies Unzip's test before
the entry type is examined. `Extract.UntarCheckedAgrees` shows it changes
nothing on well-behaved archives. The install pipeline `Install.Install`
dispatches to Untar as written, because that is what the program does.

=== FILE: extract.dfy ===
/**
 * The entry loops of Unzip and Untar. Archive decoding is not modelled: an
 * archive is the list of entries its reader yields. The filesystem is not
 * modelled either: the effect of an extraction is the sequence of writes it
 * makes, one per directory or file entry, in archive order.
 */
module Extract {
  import opened Results
  import opened Text
  import opened Paths

  newtype Byte = x: int | 0 <= x < 256

  /** A zip member as zip.Reader lists it. */
  datatype ZipEntry = ZipEntry(name: string, isDir: bool, data: seq<Byte>)

  /** tar header type flags: directories, regular files, and everything else (links, devices, ...). */
  datatype TarKind = TypeDir | TypeReg | TypeOther

  datatype TarEntry = TarEntry(name: string, kind: TarKind, data: seq<Byte>)

  /**
   * What the gzip and tar readers yield: whether the gzip header could be
   * read, the entries read, and whether reading ended at io.EOF (true) or
   * with a read error (false).
   */
  datatype TarStream = TarStream(gzipOk: bool, entries: seq<TarEntry>, endsAtEof: bool)

  /** A directory created (MkdirAll) or a file written (OpenFile + io.Copy). */
  datatype Write = MakeDir(path: string) | WriteFile(path: string, data: seq<Byte>)

  datatype ExtractError =
    | OpenFailed             // zip.OpenReader or gzip.NewReader refused the archive
    | IllegalPath(path: string)
    | ReadFailed             // tar.Reader.Next returned an error other than io.EOF

  /** The writes made, and the error that ended the extraction if there was one. */
  datatype Extraction = Extraction(writes: seq<Write>, error: Option<ExtractError>)

  // ---------------------------------------------------------------------
  // Unzip

  /** The write one zip entry makes once its path has passed the check. */
  function ZipWrite(dest: string, e: ZipEntry): Write {
    var target := JoinPath([dest, e.name]);
    if e.isDir then MakeDir(target) else WriteFile(target, e.data)
  }

  /**
   * The loop of Unzip: entries in order, each joined onto `dest` and
   * checked; the first one that fails the check ends the loop with
   * IllegalPath, and what was written before it stays written.
   */
  function UnzipEntries(dest: string, entries: seq<ZipEntry>): (x: Extraction)
    ensures |x.writes| <= |entries|
    ensures forall i :: 0 <= i < |x.writes| ==> x.writes[i] == ZipWrite(dest, entries[i])
    ensures forall i :: 0 <= i < |x.writes| ==> Within(JoinPath([dest, entries[i].name]), dest)
    ensures forall i :: 0 <= i < |x.writes| ==> Within(x.writes[i].path, dest)
    ensures x.error.None? <==> |x.writes| == |entries|
    ensures x.error.Some? ==>
              && !Within(JoinPath([dest, entries[|x.writes|].name]), dest)
              && x.error == Some(IllegalPath(JoinPath([dest, entries[|x.writes|].name])))
    decreases |entries|
  {
    if |entries| == 0 then Extraction([], None)
    else
      var target := JoinPath([dest, entries[0].name]);
      if !Within(target, dest) then Extraction([], Some(IllegalPath(target)))
      else
        var rest := UnzipEntries(dest, entries[1..]);
        Extraction([ZipWrite(dest, entries[0])] + rest.writes, rest.error)
  }

  /** Unzip: `None` is an archive zip.OpenReader cannot open. */
  function Unzip(dest: string, archive: Option<seq<ZipEntry>>): (x: Extraction)
    ensures archive.None? ==> x == Extraction([], Some(OpenFailed))
    ensures forall i :: 0 <= i < |x.writes| ==> Within(x.writes[i].path, dest)
    ensures archive.Some? ==> |x.writes| <= |archive.value|
    ensures archive.Some? ==> forall i :: 0 <= i < |x.writes| ==> x.writes[i] == ZipWrite(dest, archive.value[i])
    ensures archive.Some? ==> (x.error.None? <==> |x.writes| == |archive.value|)
    ensures archive.Some? && x.error.Some? ==>
              x.error == Some(IllegalPath(JoinPath([dest, archive.value[|x.writes|].name])))
  {
    match archive
    case None => Extraction([], Some(OpenFailed))
    case Some(entries) => UnzipEntries(dest, entries)
  }

  /** Unzip succeeds exactly when every entry passes the check, and then it makes one write per entry. */
  lemma UnzipSucceedsIff(dest: string, entries: seq<ZipEntry>)
    ensures UnzipEntries(dest, entries).error.None?
            <==> forall i :: 0 <= i < |entries| ==> Within(JoinPath([dest, entries[i].name]), dest)
  {
    var x := UnzipEntries(dest, entries);
    if x.error.Some? {
      var k := |x.writes|;
      assert !Within(JoinPath([dest, entries[k].name]), dest);
    }
  }

  /**
   * On an absolute destination the check means what it is for: every path
   * Unzip writes, read back as segments, lies strictly inside the cleaned
   * destination.
   */
  lemma UnzipStaysInside(dest: string, archive: Option<seq<ZipEntry>>)
    requires IsRooted(dest)
    ensures forall i :: 0 <= i < |Unzip(dest, archive).writes| ==>
              StrictlyBelow(Lexical(Unzip(dest, archive).writes[i].path), Lexical(dest))
  {
    var x := Unzip(dest, archive);
    forall i | 0 <= i < |x.writes|
      ensures StrictlyBelow(Lexical(x.writes[i].path), Lexical(dest))
    {
      var entries := archive.value;
      assert x.writes[i] == ZipWrite(dest, entries[i]);
      WithinIff(dest, entries[i].name);
    }
  }

  /** A name without ".." segments and with some real segment always passes, when `dest` is not "/" or ".". */
  lemma PlainNamePasses(dest: string, name: string)
    requires dest != "" && |Lexical(dest)| > 0
    requires forall i :: 0 <= i < |Split(name, Separator)| ==> Split(name, Separator)[i] != ".."
    requires exists i :: 0 <= i < |Split(name, Separator)| && Split(name, Separator)[i] != "" && Split(name, Separator)[i] != "."
    ensures Within(JoinPath([dest, name]), dest)
  {
    JoinTwo(dest, name);
    ResolveWithoutParent(Lexical(dest), Split(name, Separator), IsRooted(dest));
    WithinIff(dest, name);
  }

  // ---------------------------------------------------------------------
  // Untar, as written: no containment check

  /** The writes one tar entry makes: directories and regular files only, other types skipped. */
  function TarWrites(dest: string, e: TarEntry): seq<Write> {
    var target := JoinPath([dest, e.name]);
    match e.kind
    case TypeDir => [MakeDir(target)]
    case TypeReg => [WriteFile(target, e.data)]
    case TypeOther => []
  }

  /**
   * The loop of Untar: every directory and regular file is written wherever
   * its joined name points. Each write comes from some entry, and each
   * directory or regular-file entry is written.
   */
  function UntarEntries(dest: string, entries: seq<TarEntry>): (w: seq<Write>)
    ensures |w| <= |entries|
    ensures forall i :: 0 <= i < |w| ==> exists j :: 0 <= j < |entries| && w[i] in TarWrites(dest, entries[j])
    ensures forall j :: 0 <= j < |entries| ==> forall x :: x in TarWrites(dest, entries[j]) ==> x in w
    decreases |entries|
  {
    if |entries| == 0 then []
    else
      var first := TarWrites(dest, entries[0]);
      var tail := entries[1..];
      var rest := UntarEntries(dest, tail);
      var w := first + rest;
      assert forall i :: 0 <= i < |w| ==> exists j :: 0 <= j < |entries| && w[i] in TarWrites(dest, entries[j]) by {
        forall i | 0 <= i < |w| ensures exists j :: 0 <= j < |entries| && w[i] in TarWrites(dest, entries[j]) {
          if i < |first| {
            assert w[i] in TarWrites(dest, entries[0]);
          } else {
            assert w[i] == rest[i - |first|];
            var k :| 0 <= k < |tail| && rest[i - |first|] in TarWrites(dest, tail[k]);
            assert tail[k] == entries[k + 1];
          }
        }
      }
      assert forall j :: 0 <= j < |entries| ==> forall x :: x in TarWrites(dest, entries[j]) ==> x in w by {
        forall j | 0 <= j < |entries| ensures forall x :: x in TarWrites(dest, entries[j]) ==> x in w {
          if j > 0 {
            assert entries[j] == tail[j - 1];
          }
        }
      }
      w
  }

  function Untar(dest: string, stream: TarStream): (x: Extraction)
    ensures !stream.gzipOk ==> x == Extraction([], Some(OpenFailed))
    ensures stream.gzipOk ==> x.error.None? == stream.endsAtEof
    ensures stream.gzipOk ==> |x.writes| <= |stream.entries|
    ensures stream.gzipOk ==>
              forall i :: 0 <= i < |x.writes| ==>
                exists j :: 0 <= j < |stream.entries| && x.writes[i] in TarWrites(dest, stream.entries[j])
    ensures stream.gzipOk ==>
              forall j, w :: 0 <= j < |stream.entries| && w in TarWrites(dest, stream.entries[j]) ==> w in x.writes
  {
    if !stream.gzipOk then Extraction([], Some(OpenFailed))
    else Extraction(UntarEntries(dest, stream.entries), if stream.endsAtEof then None else Some(ReadFailed))
  }

  /** The tar loop handles entries independently: the writes for `a + b` are those for `a`, then for `b`. */
  lemma {:induction false} UntarAppend(dest: string, a: seq<TarEntry>, b: seq<TarEntry>)
    ensures UntarEntries(dest, a + b) == UntarEntries(dest, a) + UntarEntries(dest, b)
    decreases |a|
  {
    if |a| == 0 {
      assert a + b == b;
    } else {
      assert (a + b)[0] == a[0];
      assert (a + b)[1..] == a[1..] + b;
      UntarAppend(dest, a[1..], b);
    }
  }

  /** Untar's one real write for a regular file named "../x" in "/d" goes to "/x", which Unzip's check would refuse. */
  lemma UntarWritesOutsideDest()
    ensures Untar("/d", TarStream(true, [TarEntry("../x", TypeReg, [])], true))
            == Extraction([WriteFile("/x", [])], None)
    ensures !Within("/x", "/d")
  {
    ParentEscapeExample();
  }

  /** "/d" joined with "../x" cleans to "/x", outside "/d". */
  lemma ParentEscapeExample()
    ensures JoinPath(["/d", "../x"]) == "/x"
    ensures !Within("/x", "/d")
  {
    assert "/d" == "" + [Separator] + "d";
    SplitAtSeparator("", "d", Separator);
    SplitWithoutSeparator("d", Separator);
    assert Split("/d", Separator) == ["", "d"];
    assert ["", "d"][1..] == ["d"] && ["d"][1..] == [];
    assert Lexical("/d") == ResolveFrom([], ["", "d"], true) == ResolveFrom([], ["d"], true) == ["d"];
    assert "../x" == ".." + [Separator] + "x";
    SplitAtSeparator("..", "x", Separator);
    SplitWithoutSeparator("..", Separator);
    SplitWithoutSeparator("x", Separator);
    assert Split("../x", Separator) == ["..", "x"];
    assert ["..", "x"][1..] == ["x"];
    JoinTwo("/d", "../x");
    assert ResolveFrom(["d"], ["..", "x"], true) == ["x"];
    var j := JoinPath(["/d", "../x"]);
    CleanIdempotent(Join(["/d", "../x"], Separator));
    assert j == Render(Lexical(j), true) == "/x";
    assert Clean("/d") == "/d";
  }

  // ---------------------------------------------------------------------
  // Untar with Unzip's check: the corrected loop

  /** The tar loop with the containment check Unzip applies, in the same place: before the entry's type is looked at. */
  function UntarCheckedEntries(dest: string, entries: seq<TarEntry>): (x: Extraction)
    ensures forall i :: 0 <= i < |x.writes| ==> Within(x.writes[i].path, dest)
    ensures x.error.None? <==> forall i :: 0 <= i < |entries| ==> Within(JoinPath([dest, entries[i].name]), dest)
    ensures x.error.Some? ==> x.error.value.IllegalPath?
    decreases |entries|
  {
    if |entries| == 0 then Extraction([], None)
    else
      var target := JoinPath([dest, entries[0].name]);
      if !Within(target, dest) then Extraction([], Some(IllegalPath(target)))
      else
        var rest := UntarCheckedEntries(dest, entries[1..]);
        assert forall i :: 0 <= i < |TarWrites(dest, entries[0])| ==> TarWrites(dest, entries[0])[i].path == target;
        assert forall i :: 1 <= i < |entries| ==> entries[1..][i - 1] == entries[i];
        Extraction(TarWrites(dest, entries[0]) + rest.writes, rest.error)
  }

  function UntarChecked(dest: string, stream: TarStream): (x: Extraction)
    ensures !stream.gzipOk ==> x == Extraction([], Some(OpenFailed))
    ensures forall i :: 0 <= i < |x.writes| ==> Within(x.writes[i].path, dest)
  {
    if !stream.gzipOk then Extraction([], Some(OpenFailed))
    else
      var x := UntarCheckedEntries(dest, stream.entries);
      if x.error.Some? then x
      else Extraction(x.writes, if stream.endsAtEof then None else Some(ReadFailed))
  }

  /** On archives whose every entry passes the check, the corrected Untar does exactly what the written one does. */
  lemma {:induction false} UntarCheckedAgrees(dest: string, entries: seq<TarEntry>)
    requires forall i :: 0 <= i < |entries| ==> Within(JoinPath([dest, entries[i].name]), dest)
    ensures UntarCheckedEntries(dest, entries) == Extraction(UntarEntries(dest, entries), None)
    decreases |entries|
  {
    if |entries| > 0 {
      assert Within(JoinPath([dest, entries[0].name]), dest);
      assert forall i :: 0 <= i < |entries[1..]| ==> entries[1..][i] == entries[i + 1];
      UntarCheckedAgrees(dest, entries[1..]);
    }
  }
}

=== FILE: install.dfy ===
/**
 * Install as a whole: the plan, then the download, then the extractor the
 * URL's suffix selects, into `<home>/.gvm/versions/<lang>/<version>`. The
 * HTTP exchange is a parameter: either a transport failure or a status with
 * the body as each archive reader would see it.
 */
module Install {
  import opened Results
  import opened Paths
  import opened Layout
  import opened Sources
  import opened Extract

  /** The body of the response as the zip reader and as the gzip/tar reader would see it. */
  datatype Payload = Payload(asZip: Option<seq<ZipEntry>>, asTar: TarStream)

  datatype Response = TransportError | Reply(status: int, payload: Payload)

  const StatusOK: int := 200

  datatype Installed = Skipped | Done

  datatype InstallError =
    | PlanFailed(plan: PlanError)
    | NetworkError
    | BadStatus(status: int)
    | ExtractFailed(extractor: Extractor, cause: ExtractError)

  /** The outcome, whether the network was asked for anything, and what was written. */
  datatype Run = Run(result: Result<Installed, InstallError>, fetched: bool, writes: seq<Write>)

  /** Hand the downloaded body to the extractor the plan chose. */
  function Dispatch(extractor: Extractor, dest: string, payload: Payload): (x: Extraction)
    ensures extractor == Unzip ==> forall i :: 0 <= i < |x.writes| ==> Within(x.writes[i].path, dest)
    ensures extractor == Unzip ==>
              (x.error.None? <==>
                 && payload.asZip.Some?
                 && forall i :: 0 <= i < |payload.asZip.value| ==> Within(JoinPath([dest, payload.asZip.value[i].name]), dest))
    ensures extractor == Untar ==> (x.error.None? <==> payload.asTar.gzipOk && payload.asTar.endsAtEof)
    ensures extractor == Unzip && payload.asZip.Some? ==> x == UnzipEntries(dest, payload.asZip.value)
    ensures extractor == Untar && payload.asTar.gzipOk ==> x.writes == UntarEntries(dest, payload.asTar.entries)
  {
    match extractor
    case Unzip =>
      if payload.asZip.Some? then
        UnzipSucceedsIff(dest, payload.asZip.value);
        Extract.Unzip(dest, payload.asZip)
      else
        Extract.Unzip(dest, payload.asZip)
    case Untar => Extract.Untar(dest, payload.asTar)
  }

  /**
   * Install. `present` is true when stat of the install path did not report
   * "does not exist"; `goos` and `goarch` are the running platform.
   */
  function Install(present: bool, home: string, lang: string, version: string, goos: string, goarch: string,
                   response: Response): (r: Run)
    ensures present ==> r == Run(Ok(Skipped), false, [])
    ensures r.fetched <==> !present && lang in DownloadSources && goos in DownloadSources[lang]
    ensures !present && lang !in DownloadSources ==> r == Run(Err(PlanFailed(UnsupportedLanguage(lang))), false, [])
    ensures (!present && lang in DownloadSources && goos !in DownloadSources[lang]) ==>
              r == Run(Err(PlanFailed(UnsupportedOS(goos, lang))), false, [])
    ensures r.fetched && response.TransportError? ==> r == Run(Err(NetworkError), true, [])
    ensures r.fetched && response.Reply? && response.status != StatusOK ==>
              r == Run(Err(BadStatus(response.status)), true, [])
    ensures |r.writes| > 0 ==> r.fetched && response.Reply? && response.status == StatusOK
    ensures r.fetched && response.Reply? && response.status == StatusOK ==>
              var extractor := PlanInstall(present, lang, version, goos, goarch).value.extractor;
              var x := Dispatch(extractor, VersionPath(home, lang, version), response.payload);
              && extractor == ExtractorFor(PlanInstall(present, lang, version, goos, goarch).value.url)
              && r.writes == x.writes
              && (r.result == Ok(Done) <==> x.error.None?)
              && (x.error.Some? ==> r.result == Err(ExtractFailed(extractor, x.error.value)))
  {
    var dest := VersionPath(home, lang, version);
    match PlanInstall(present, lang, version, goos, goarch)
    case Err(e) => Run(Err(PlanFailed(e)), false, [])
    case Ok(AlreadyInstalled) => Run(Ok(Skipped), false, [])
    case Ok(Download(url, _, extractor)) =>
      match response
      case TransportError => Run(Err(NetworkError), true, [])
      case Reply(status, payload) =>
        if status != StatusOK then Run(Err(BadStatus(status)), true, [])
        else
          var x := Dispatch(extractor, dest, payload);
          match x.error
          case None => Run(Ok(Done), true, x.writes)
          case Some(cause) => Run(Err(ExtractFailed(extractor, cause)), true, x.writes)
  }

  /** On Windows every install is a zip install, so nothing is written outside the install path. */
  lemma WindowsInstallsStayInside(present: bool, home: string, lang: string, version: string, goarch: string,
                                  response: Response)
    ensures forall i :: 0 <= i < |Install(present, home, lang, version, "windows", goarch, response).writes| ==>
              Within(Install(present, home, lang, version, "windows", goarch, response).writes[i].path,
                     VersionPath(home, lang, version))
  {
    if !present && lang in DownloadSources && "windows" in DownloadSources[lang] {
      OnlyWindowsUnzips(lang, version, "windows", goarch);
    }
  }

  /** On Linux and macOS a Go install is a tar install, so its writes are whatever the archive's names say. */
  lemma UnixGoInstallsUntar(home: string, version: string, goos: string, goarch: string, payload: Payload)
    requires goos == "linux" || goos == "darwin"
    ensures Install(false, home, "go", version, goos, goarch, Reply(StatusOK, payload)).writes
            == Extract.Untar(VersionPath(home, "go", version), payload.asTar).writes
    ensures payload.asTar.gzipOk ==>
              Install(false, home, "go", version, goos, goarch, Reply(StatusOK, payload)).writes
              == UntarEntries(VersionPath(home, "go", version), payload.asTar.entries)
  {
    OnlyWindowsUnzips("go", version, goos, goarch);
  }
}

=== FILE: layout.dfy ===
/**
 * The on-disk layout: `<home>/.gvm` is the base directory, and version `v`
 * of language `l` lives in `<home>/.gvm/versions/l/v`. The home directory
 * is a parameter (os.UserHomeDir fails when it is empty, so it is never
 * empty here).
 */
module Layout {
  import opened Text
  import opened Paths

  /** GetBaseDir: the home directory's segments followed by ".gvm". */
  function BaseDir(home: string): (r: string)
    ensures home != "" ==> r != "" && IsRooted(r) == IsRooted(home) && Lexical(r) == Lexical(home) + [".gvm"]
  {
    var r := JoinPath([home, ".gvm"]);
    if home == "" then r
    else
      JoinPathNonEmpty([home, ".gvm"]);
      JoinOneName(home, ".gvm");
      r
  }

  /** GetVersionsDir: the base directory's segments followed by "versions". */
  function VersionsDir(home: string): (r: string)
    ensures home != "" ==>
              r != "" && IsRooted(r) == IsRooted(home) && Lexical(r) == Lexical(home) + [".gvm", "versions"]
  {
    var r := JoinPath([BaseDir(home), "versions"]);
    if home == "" then r
    else
      JoinPathNonEmpty([BaseDir(home), "versions"]);
      JoinOneName(BaseDir(home), "versions");
      assert Lexical(home) + [".gvm"] + ["versions"] == Lexical(home) + [".gvm", "versions"];
      r
  }

  /**
   * The install path of Install and the version path of GenerateUseCommand:
   * the language's and the version's segments resolved on top of the
   * versions directory's.
   */
  function VersionPath(home: string, lang: string, version: string): (r: string)
    ensures home != "" ==>
              && IsRooted(r) == IsRooted(home)
              && Lexical(r) == ResolveFrom(Lexical(home) + [".gvm", "versions"],
                                           Split(lang, Separator) + Split(version, Separator), IsRooted(home))
  {
    var r := JoinPath([VersionsDir(home), lang, version]);
    if home == "" then r
    else
      JoinThree(VersionsDir(home), lang, version);
      r
  }

  /** Joining one plain name onto a non-empty directory appends it to the directory's segments. */
  lemma JoinOneName(dir: string, name: string)
    requires dir != "" && IsName(name) && name != ".."
    ensures IsRooted(JoinPath([dir, name])) == IsRooted(dir)
    ensures Lexical(JoinPath([dir, name])) == Lexical(dir) + [name]
  {
    JoinTwo(dir, name);
    SplitWithoutSeparator(name, Separator);
    assert [name][1..] == [];
  }

  /** No segment of `p` is "..". */
  predicate NoParentSegment(p: string) {
    forall i :: 0 <= i < |Split(p, Separator)| ==> Split(p, Separator)[i] != ".."
  }

  // ---------------------------------------------------------------------
  // Cleaned paths are never empty

  lemma CleanNonEmpty(p: string)
    ensures Clean(p) != ""
  {
    var s := Lexical(p);
    LexicalResolved(p);
    if |s| > 0 {
      assert IsName(s[0]);
      JoinStartsWith(s, Separator);
    }
  }

  lemma JoinPathNonEmpty(elems: seq<string>)
    requires |elems| > 0 && elems[0] != ""
    ensures JoinPath(elems) != ""
  {
    CleanNonEmpty(Join(elems, Separator));
  }

  // ---------------------------------------------------------------------
  // Characters that cleaning neither adds nor loses

  /** A character other than '/' and '.' is in no piece of a string that lacks it. */
  lemma {:induction false} SplitAvoids(s: string, c: char)
    requires c != Separator && c !in s
    ensures forall i :: 0 <= i < |Split(s, Separator)| ==> c !in Split(s, Separator)[i]
    decreases |s|
  {
    if |s| > 0 {
      assert c !in s[1..];
      SplitAvoids(s[1..], c);
      var rest := Split(s[1..], Separator);
      assert c !in [s[0]] + rest[0];
      assert forall i :: 0 <= i < |rest[1..]| ==> c !in rest[1..][i];
    }
  }

  lemma {:induction false} ResolveAvoids(stack: seq<string>, segs: seq<string>, rooted: bool, c: char)
    requires c != '.'
    requires forall i :: 0 <= i < |stack| ==> c !in stack[i]
    requires forall i :: 0 <= i < |segs| ==> c !in segs[i]
    ensures forall i :: 0 <= i < |ResolveFrom(stack, segs, rooted)| ==> c !in ResolveFrom(stack, segs, rooted)[i]
    decreases |segs|
  {
    if |segs| > 0 {
      var next := Step(stack, segs[0], rooted);
      assert c !in "..";
      assert forall i :: 0 <= i < |next| ==> c !in next[i];
      assert forall i :: 0 <= i < |segs[1..]| ==> c !in segs[1..][i];
      ResolveAvoids(next, segs[1..], rooted, c);
    }
  }

  lemma {:induction false} JoinAvoids(parts: seq<string>, sep: char, c: char)
    requires c != sep
    requires forall i :: 0 <= i < |parts| ==> c !in parts[i]
    ensures c !in Join(parts, sep)
    decreases |parts|
  {
    if |parts| > 1 {
      assert forall i :: 0 <= i < |parts[1..]| ==> c !in parts[1..][i];
      JoinAvoids(parts[1..], sep, c);
    }
  }

  /** Cleaning never introduces a character other than '/' and '.'. */
  lemma CleanAvoids(p: string, c: char)
    requires c != Separator && c != '.' && c !in p
    ensures c !in Clean(p)
  {
    SplitAvoids(p, c);
    ResolveAvoids([], Split(p, Separator), IsRooted(p), c);
    JoinAvoids(Lexical(p), Separator, c);
  }

  lemma JoinPathAvoids(elems: seq<string>, c: char)
    requires c != Separator && c != '.'
    requires forall i :: 0 <= i < |elems| ==> c !in elems[i]
    ensures c !in JoinPath(elems)
    decreases |elems|
  {
    if |elems| > 0 {
      if elems[0] == "" {
        assert forall i :: 0 <= i < |elems[1..]| ==> c !in elems[1..][i];
        JoinPathAvoids(elems[1..], c);
      } else {
        JoinAvoids(elems, Separator, c);
        CleanAvoids(Join(elems, Separator), c);
      }
    }
  }

  /** The version path is made of the home directory, the language and the version, plus '/' and '.'. */
  lemma VersionPathAvoids(home: string, lang: string, version: string, windows: bool)
    requires ListSeparator(windows) !in home && ListSeparator(windows) !in lang && ListSeparator(windows) !in version
    ensures ListSeparator(windows) !in BaseDir(home)
    ensures ListSeparator(windows) !in VersionPath(home, lang, version)
    ensures ListSeparator(windows) !in JoinPath([VersionPath(home, lang, version), "go", "bin"])
  {
    var c := ListSeparator(windows);
    assert c !in ".gvm" && c !in "versions" && c !in "go" && c !in "bin";
    JoinPathAvoids([home, ".gvm"], c);
    JoinPathAvoids([BaseDir(home), "versions"], c);
    JoinPathAvoids([VersionsDir(home), lang, version], c);
    JoinPathAvoids([VersionPath(home, lang, version), "go", "bin"], c);
  }

  // ---------------------------------------------------------------------
  // Everything the layout names lies under the base directory

  /** The base directory resolves to the home directory's segments and ".gvm". */
  lemma BaseDirShape(home: string)
    requires home != ""
    ensures IsRooted(BaseDir(home)) == IsRooted(home)
    ensures |Lexical(BaseDir(home))| > 0
    ensures BaseDir(home) == Render(Lexical(BaseDir(home)), IsRooted(home))
  {
    JoinTwo(home, ".gvm");
    SplitWithoutSeparator(".gvm", Separator);
    assert [".gvm"][0] == ".gvm";
    ResolveWithoutParent(Lexical(home), [".gvm"], IsRooted(home));
    CleanIdempotent(Join([home, ".gvm"], Separator));
  }

  /** The versions directory resolves to the base directory's segments and "versions". */
  lemma VersionsDirBelowBase(home: string)
    requires home != ""
    ensures VersionsDir(home) != ""
    ensures IsRooted(VersionsDir(home)) == IsRooted(home)
    ensures StrictlyBelow(Lexical(VersionsDir(home)), Lexical(BaseDir(home)))
  {
    var base := BaseDir(home);
    BaseDirShape(home);
    JoinPathNonEmpty([home, ".gvm"]);
    JoinTwo(base, "versions");
    SplitWithoutSeparator("versions", Separator);
    assert ["versions"][0] == "versions";
    ResolveWithoutParent(Lexical(base), ["versions"], IsRooted(home));
    JoinPathNonEmpty([base, "versions"]);
  }

  /** Joining names without ".." onto a directory keeps the directory's segments as a prefix. */
  lemma JoinThreeExtends(dir: string, a: string, b: string)
    requires dir != ""
    requires NoParentSegment(a) && NoParentSegment(b)
    ensures JoinPath([dir, a, b]) != ""
    ensures IsRooted(JoinPath([dir, a, b])) == IsRooted(dir)
    ensures |Lexical(dir)| <= |Lexical(JoinPath([dir, a, b]))|
    ensures Lexical(JoinPath([dir, a, b]))[..|Lexical(dir)|] == Lexical(dir)
  {
    JoinThree(dir, a, b);
    JoinPathNonEmpty([dir, a, b]);
    var sa := Split(a, Separator);
    var segs := sa + Split(b, Separator);
    forall i | 0 <= i < |segs| ensures segs[i] != ".." {
      if i >= |sa| {
        assert segs[i] == Split(b, Separator)[i - |sa|];
      }
    }
    ResolveWithoutParent(Lexical(dir), segs, IsRooted(dir));
  }

  lemma NamesHaveNoParent()
    ensures NoParentSegment("go") && NoParentSegment("bin")
  {
    SplitWithoutSeparator("go", Separator);
    SplitWithoutSeparator("bin", Separator);
  }

  /**
   * With no ".." in the language or version, the version path, and the Go
   * `bin` directory inside it, resolve to the base directory's segments
   * followed by at least one more.
   */
  lemma VersionPathBelowBase(home: string, lang: string, version: string)
    requires home != ""
    requires NoParentSegment(lang) && NoParentSegment(version)
    ensures VersionPath(home, lang, version) != ""
    ensures IsRooted(VersionPath(home, lang, version)) == IsRooted(home)
    ensures StrictlyBelow(Lexical(VersionPath(home, lang, version)), Lexical(BaseDir(home)))
    ensures IsRooted(JoinPath([VersionPath(home, lang, version), "go", "bin"])) == IsRooted(home)
    ensures StrictlyBelow(Lexical(JoinPath([VersionPath(home, lang, version), "go", "bin"])), Lexical(BaseDir(home)))
  {
    var vd := VersionsDir(home);
    var vp := VersionPath(home, lang, version);
    VersionsDirBelowBase(home);
    JoinThreeExtends(vd, lang, version);
    PrefixTransitive(Lexical(vp), Lexical(vd), Lexical(BaseDir(home)));
    NamesHaveNoParent();
    JoinThreeExtends(vp, "go", "bin");
    PrefixTransitive(Lexical(JoinPath([vp, "go", "bin"])), Lexical(vp), Lexical(BaseDir(home)));
  }

  lemma PrefixTransitive(a: seq<string>, b: seq<string>, c: seq<string>)
    requires |b| <= |a| && a[..|b|] == b
    requires StrictlyBelow(b, c)
    ensures StrictlyBelow(a, c)
  {
    assert a[..|c|] == a[..|b|][..|c|];
  }

  /** A path strictly below the base directory, as segments, contains the base directory as text. */
  lemma BelowBaseContainsBase(home: string, p: string)
    requires home != ""
    requires p == Clean(p)
    requires StrictlyBelow(Lexical(p), Lexical(BaseDir(home)))
    requires IsRooted(p) == IsRooted(home)
    ensures Contains(p, BaseDir(home))
  {
    var base := BaseDir(home);
    BaseDirShape(home);
    LexicalResolved(p);
    assert base == Clean(Join([home, ".gvm"], Separator));
    LexicalResolved(Join([home, ".gvm"], Separator));
    CleanIdempotent(Join([home, ".gvm"], Separator));
    RenderPrefixIff(Lexical(base), Lexical(p), IsRooted(home));
    assert HasPrefix(p, base + [Separator]);
    assert p[..|base|] == (base + [Separator])[..|base|] == base;
  }
}

=== FILE: paths.dfy ===
/**
 * Lexical path handling as Go's path/filepath does it on a '/'-separated
 * system. A path is cut at separators into segments; Clean resolves the
 * segments with a stack ("" and "." vanish, ".." pops the previous name,
 * and at the root of an absolute path ".." is dropped), and prints the
 * stack back. Join concatenates its non-empty elements and cleans.
 */
module Paths {
  import opened Text

  const Separator: char := '/'

  /** filepath.ListSeparator, the separator between PATH entries: ';' on Windows, ':' elsewhere. */
  function ListSeparator(windows: bool): char {
    if windows then ';' else ':'
  }

  /** A segment that survives cleaning: not empty, not ".", no separator inside. */
  predicate IsName(x: string) {
    x != "" && x != "." && Separator !in x
  }

  /**
   * The shape of a resolved stack: names only; the ".." entries, if any, form
   * a leading run; and an absolute (rooted) path has none at all.
   */
  predicate Resolved(stack: seq<string>, rooted: bool) {
    && (forall i :: 0 <= i < |stack| ==> IsName(stack[i]))
    && (forall i, j :: 0 <= j < i < |stack| && stack[i] == ".." ==> stack[j] == "..")
    && (rooted ==> forall i :: 0 <= i < |stack| ==> stack[i] != "..")
  }

  /** One step of Clean's resolution: the effect of segment `seg` on the stack. */
  function Step(stack: seq<string>, seg: string, rooted: bool): seq<string> {
    if seg == "" || seg == "." then stack
    else if seg == ".." then
      if |stack| > 0 && stack[|stack| - 1] != ".." then stack[..|stack| - 1]
      else if rooted then stack
      else stack + [".."]
    else stack + [seg]
  }

  /** Resolve `segs`, left to right, on top of `stack`. */
  function ResolveFrom(stack: seq<string>, segs: seq<string>, rooted: bool): seq<string>
    decreases |segs|
  {
    if |segs| == 0 then stack
    else ResolveFrom(Step(stack, segs[0], rooted), segs[1..], rooted)
  }

  predicate IsRooted(p: string) {
    |p| > 0 && p[0] == Separator
  }

  /** The resolved segments of `p`. */
  function Lexical(p: string): seq<string> {
    ResolveFrom([], Split(p, Separator), IsRooted(p))
  }

  /** Print a stack: "/" or "." when empty, otherwise the names joined, after a "/" when rooted. */
  function Render(stack: seq<string>, rooted: bool): string {
    if |stack| == 0 then (if rooted then [Separator] else ".")
    else (if rooted then [Separator] else "") + Join(stack, Separator)
  }

  /** filepath.Clean. */
  function Clean(p: string): string {
    Render(Lexical(p), IsRooted(p))
  }

  /** filepath.Join: from the first non-empty element on, join with the separator and clean; "" if all are empty. */
  function JoinPath(elems: seq<string>): string
    decreases |elems|
  {
    if |elems| == 0 then ""
    else if elems[0] == "" then JoinPath(elems[1..])
    else Clean(Join(elems, Separator))
  }

  /** The test Unzip applies to every entry: `p` starts with `Clean(dest)` followed by a separator. */
  predicate Within(p: string, dest: string) {
    HasPrefix(p, Clean(dest) + [Separator])
  }

  /** `inner` extends `outer` by at least one more segment. */
  predicate StrictlyBelow(inner: seq<string>, outer: seq<string>) {
    |outer| < |inner| && inner[..|outer|] == outer
  }

  // ---------------------------------------------------------------------
  // Resolution

  /** Resolution is a left fold: resolving `a + b` resolves `b` on top of the result for `a`. */
  lemma {:induction false} ResolveAppend(stack: seq<string>, a: seq<string>, b: seq<string>, rooted: bool)
    ensures ResolveFrom(stack, a + b, rooted) == ResolveFrom(ResolveFrom(stack, a, rooted), b, rooted)
    decreases |a|
  {
    if |a| == 0 {
      assert a + b == b;
    } else {
      assert (a + b)[0] == a[0];
      assert (a + b)[1..] == a[1..] + b;
      ResolveAppend(Step(stack, a[0], rooted), a[1..], b, rooted);
    }
  }

  /** A step keeps a resolved stack resolved. */
  lemma StepResolved(stack: seq<string>, seg: string, rooted: bool)
    requires Resolved(stack, rooted)
    requires Separator !in seg
    ensures Resolved(Step(stack, seg, rooted), rooted)
  {
    var s := Step(stack, seg, rooted);
    if seg == ".." && !(|stack| > 0 && stack[|stack| - 1] != "..") && !rooted {
      forall i, j | 0 <= j < i < |s| && s[i] == ".."
        ensures s[j] == ".."
      {
        if i < |stack| {
        } else {
          assert stack[|stack| - 1] == "..";
        }
      }
    }
  }

  /** Resolution only ever produces resolved stacks. */
  lemma {:induction false} ResolveFromResolved(stack: seq<string>, segs: seq<string>, rooted: bool)
    requires Resolved(stack, rooted)
    requires forall i :: 0 <= i < |segs| ==> Separator !in segs[i]
    ensures Resolved(ResolveFrom(stack, segs, rooted), rooted)
    decreases |segs|
  {
    if |segs| > 0 {
      StepResolved(stack, segs[0], rooted);
      ResolveFromResolved(Step(stack, segs[0], rooted), segs[1..], rooted);
    }
  }

  /** The resolved segments of any path form a resolved stack. */
  lemma LexicalResolved(p: string)
    ensures Resolved(Lexical(p), IsRooted(p))
  {
    ResolveFromResolved([], Split(p, Separator), IsRooted(p));
  }

  /** Resolving a stack that is already resolved pushes every segment unchanged. */
  lemma {:induction false} ResolveResolvedPushes(stack: seq<string>, segs: seq<string>, rooted: bool)
    requires Resolved(stack + segs, rooted)
    ensures ResolveFrom(stack, segs, rooted) == stack + segs
    decreases |segs|
  {
    if |segs| > 0 {
      var all := stack + segs;
      assert all[|stack|] == segs[0];
      assert IsName(segs[0]);
      if segs[0] == ".." {
        assert !rooted;
        if |stack| > 0 {
          assert all[|stack| - 1] == "..";
        }
      }
      assert Step(stack, segs[0], rooted) == stack + [segs[0]];
      assert stack + [segs[0]] + segs[1..] == all;
      ResolveResolvedPushes(stack + [segs[0]], segs[1..], rooted);
    }
  }

  /** Segments without any ".." only push their names: the stack is extended, never shortened. */
  lemma {:induction false} ResolveWithoutParent(stack: seq<string>, segs: seq<string>, rooted: bool)
    requires forall i :: 0 <= i < |segs| ==> segs[i] != ".."
    ensures |ResolveFrom(stack, segs, rooted)| >= |stack|
    ensures ResolveFrom(stack, segs, rooted)[..|stack|] == stack
    ensures (exists i :: 0 <= i < |segs| && segs[i] != "" && segs[i] != ".") ==> |ResolveFrom(stack, segs, rooted)| > |stack|
    decreases |segs|
  {
    if |segs| > 0 {
      var next := Step(stack, segs[0], rooted);
      ResolveWithoutParent(next, segs[1..], rooted);
      var r := ResolveFrom(next, segs[1..], rooted);
      assert next[..|stack|] == stack;
      assert r[..|stack|] == r[..|next|][..|stack|];
      if exists i :: 0 <= i < |segs| && segs[i] != "" && segs[i] != "." {
        var i :| 0 <= i < |segs| && segs[i] != "" && segs[i] != ".";
        if i > 0 {
          assert segs[1..][i - 1] == segs[i];
        }
      }
    }
  }

  // ---------------------------------------------------------------------
  // Printing and re-reading

  lemma RenderRooted(stack: seq<string>, rooted: bool)
    requires Resolved(stack, rooted)
    ensures IsRooted(Render(stack, rooted)) == rooted
  {
    if |stack| > 0 && !rooted {
      assert IsName(stack[0]);
      if |stack| > 1 {
        assert Join(stack, Separator) == stack[0] + [Separator] + Join(stack[1..], Separator);
      }
      assert Join(stack, Separator)[0] == stack[0][0];
      assert stack[0][0] in stack[0];
    }
  }

  /** "/" has no segments. */
  lemma LexicalOfRoot()
    ensures Lexical([Separator]) == []
  {
    assert [Separator] == "" + [Separator] + "";
    SplitAtSeparator("", "", Separator);
    assert Split([Separator], Separator) == ["", ""];
    assert ["", ""][1..] == [""] && [""][1..] == [];
    assert ResolveFrom([], ["", ""], true) == ResolveFrom([], [""], true) == ResolveFrom([], [], true);
  }

  /** "." has no segments. */
  lemma LexicalOfDot()
    ensures Lexical(".") == []
  {
    SplitWithoutSeparator(".", Separator);
    assert ["."][1..] == [];
    assert ResolveFrom([], ["."], false) == ResolveFrom([], [], false);
  }

  /** Reading a printed resolved stack gives the stack back. */
  lemma LexicalRender(stack: seq<string>, rooted: bool)
    requires Resolved(stack, rooted)
    ensures Lexical(Render(stack, rooted)) == stack
  {
    RenderRooted(stack, rooted);
    var p := Render(stack, rooted);
    if |stack| == 0 {
      if rooted {
        LexicalOfRoot();
      } else {
        LexicalOfDot();
      }
    } else {
      forall i | 0 <= i < |stack| ensures Separator !in stack[i] {
        assert IsName(stack[i]);
      }
      SplitJoin(stack, Separator);
      assert ResolveFrom([], stack, rooted) == stack by {
        assert [] + stack == stack;
        ResolveResolvedPushes([], stack, rooted);
      }
      if rooted {
        RootedSplit(stack);
      } else {
        assert p == Join(stack, Separator);
      }
    }
  }

  /** The segments of a rooted printed stack: an empty one before the root, then the names. */
  lemma RootedSplit(stack: seq<string>)
    requires |stack| > 0
    requires Split(Join(stack, Separator), Separator) == stack
    ensures Split(Render(stack, true), Separator) == [""] + stack
    ensures ResolveFrom([], [""] + stack, true) == ResolveFrom([], stack, true)
  {
    var j := Join(stack, Separator);
    assert Render(stack, true) == "" + [Separator] + j;
    SplitAtSeparator("", j, Separator);
    assert ([""] + stack)[1..] == stack;
  }

  /** Clean is idempotent, and a clean path keeps its rootedness. */
  lemma CleanIdempotent(p: string)
    ensures IsRooted(Clean(p)) == IsRooted(p)
    ensures Lexical(Clean(p)) == Lexical(p)
    ensures Clean(Clean(p)) == Clean(p)
  {
    LexicalResolved(p);
    RenderRooted(Lexical(p), IsRooted(p));
    LexicalRender(Lexical(p), IsRooted(p));
  }

  // ---------------------------------------------------------------------
  // Join

  /** Joining a non-empty directory with a name resolves the name's segments on top of the directory. */
  lemma JoinTwo(dir: string, name: string)
    requires dir != ""
    ensures IsRooted(JoinPath([dir, name])) == IsRooted(dir)
    ensures Lexical(JoinPath([dir, name])) == ResolveFrom(Lexical(dir), Split(name, Separator), IsRooted(dir))
  {
    var joined := dir + [Separator] + name;
    assert Join([dir, name], Separator) == joined;
    assert IsRooted(joined) == IsRooted(dir);
    SplitAtSeparator(dir, name, Separator);
    ResolveAppend([], Split(dir, Separator), Split(name, Separator), IsRooted(dir));
    CleanIdempotent(joined);
  }

  /** Joining a non-empty directory with two names resolves both names' segments on top of it. */
  lemma JoinThree(dir: string, a: string, b: string)
    requires dir != ""
    ensures IsRooted(JoinPath([dir, a, b])) == IsRooted(dir)
    ensures Lexical(JoinPath([dir, a, b]))
         == ResolveFrom(Lexical(dir), Split(a, Separator) + Split(b, Separator), IsRooted(dir))
  {
    var joined := dir + [Separator] + (a + [Separator] + b);
    assert Join([dir, a, b], Separator) == joined by {
      assert [dir, a, b][1..] == [a, b];
      assert Join([a, b], Separator) == a + [Separator] + b;
    }
    assert IsRooted(joined) == IsRooted(dir);
    SplitAtSeparator(dir, a + [Separator] + b, Separator);
    SplitAtSeparator(a, b, Separator);
    ResolveAppend([], Split(dir, Separator), Split(a, Separator) + Split(b, Separator), IsRooted(dir));
    CleanIdempotent(joined);
  }

  /** A leading separator on the joined name adds no escape: the result depends only on the name's segments. */
  lemma LeadingSeparatorIgnored(dir: string, name: string)
    requires dir != ""
    ensures JoinPath([dir, [Separator] + name]) == JoinPath([dir, name])
  {
    JoinTwo(dir, name);
    JoinTwo(dir, [Separator] + name);
    SplitAtSeparator("", name, Separator);
    assert "" + [Separator] + name == [Separator] + name;
    assert Split([Separator] + name, Separator) == [""] + Split(name, Separator);
    assert ([""] + Split(name, Separator))[1..] == Split(name, Separator);
    var s := Split(name, Separator);
    assert ResolveFrom(Lexical(dir), [""] + s, IsRooted(dir)) == ResolveFrom(Lexical(dir), s, IsRooted(dir));
    var x := Join([dir, name], Separator);
    var y := Join([dir, [Separator] + name], Separator);
    CleanIdempotent(x);
    CleanIdempotent(y);
    assert JoinPath([dir, name]) == Clean(x) == Render(Lexical(x), IsRooted(x));
    assert JoinPath([dir, [Separator] + name]) == Clean(y) == Render(Lexical(y), IsRooted(y));
  }

  // ---------------------------------------------------------------------
  // The containment test

  /** Two separator-free heads followed by separators: one printed path starts with the other exactly when the heads agree. */
  lemma PrefixAtSeparator(c: string, f: string, x: string, y: string)
    requires Separator !in c && Separator !in f
    ensures HasPrefix(f + [Separator] + y, c + [Separator] + x) <==> c == f && HasPrefix(y, x)
  {
    var t := f + [Separator] + y;
    var p := c + [Separator] + x;
    if HasPrefix(t, p) {
      assert t[..|p|] == p;
      assert t[|c|] == p[|c|] == Separator;
      assert forall k :: 0 <= k < |f| ==> t[k] == f[k] && f[k] in f;
      assert |c| >= |f|;
      assert p[|f|] == t[|f|] == Separator;
      assert forall k :: 0 <= k < |c| ==> p[k] == c[k] && c[k] in c;
      assert c == p[..|c|] == t[..|c|] == f;
      assert y[..|x|] == t[|f| + 1..][..|x|];
      assert t[|f| + 1..][..|x|] == p[|c| + 1..];
      assert p[|c| + 1..] == x;
    }
    if c == f && HasPrefix(y, x) {
      assert t[..|p|] == p;
    }
  }

  /** A separator-free string never starts with a string that has a separator. */
  lemma NoPrefixWithSeparator(f: string, c: string, x: string)
    requires Separator !in f
    ensures !HasPrefix(f, c + [Separator] + x)
  {
    var p := c + [Separator] + x;
    if |p| <= |f| {
      assert f[|c|] in f;
      assert p[|c|] == Separator;
    }
  }

  /** String form of the test versus segment form, on joined names. */
  lemma {:induction false} JoinPrefixIff(outer: seq<string>, inner: seq<string>)
    requires |outer| >= 1
    requires forall i :: 0 <= i < |outer| ==> Separator !in outer[i]
    requires forall i :: 0 <= i < |inner| ==> Separator !in inner[i]
    ensures HasPrefix(Join(inner, Separator), Join(outer, Separator) + [Separator]) <==> StrictlyBelow(inner, outer)
    decreases |outer|
  {
    var c := outer[0];
    var tail := if |outer| == 1 then "" else Join(outer[1..], Separator) + [Separator];
    assert Join(outer, Separator) + [Separator] == c + [Separator] + tail by {
      if |outer| > 1 {
        assert Join(outer, Separator) == c + [Separator] + Join(outer[1..], Separator);
      }
    }
    if |inner| == 0 {
      assert Join(inner, Separator) == "";
    } else if |inner| == 1 {
      NoPrefixWithSeparator(inner[0], c, tail);
    } else {
      var f := inner[0];
      assert Join(inner, Separator) == f + [Separator] + Join(inner[1..], Separator);
      PrefixAtSeparator(c, f, tail, Join(inner[1..], Separator));
      if |outer| == 1 {
        assert HasPrefix(Join(inner[1..], Separator), "");
        assert StrictlyBelow(inner, outer) <==> c == f;
      } else {
        JoinPrefixIff(outer[1..], inner[1..]);
        assert StrictlyBelow(inner, outer) <==> c == f && StrictlyBelow(inner[1..], outer[1..]) by {
          if StrictlyBelow(inner, outer) {
            assert inner[1..][..|outer| - 1] == inner[..|outer|][1..];
          }
          if c == f && StrictlyBelow(inner[1..], outer[1..]) {
            assert inner[..|outer|] == [f] + inner[1..][..|outer| - 1];
            assert outer == [c] + outer[1..];
          }
        }
      }
    }
  }

  /** The printed-path test on two resolved stacks of the same rootedness is the segment test "strictly below". */
  lemma RenderPrefixIff(outer: seq<string>, inner: seq<string>, rooted: bool)
    requires Resolved(outer, rooted) && Resolved(inner, rooted)
    ensures HasPrefix(Render(inner, rooted), Render(outer, rooted) + [Separator])
        <==> |outer| > 0 && StrictlyBelow(inner, outer)
  {
    forall i | 0 <= i < |outer| ensures Separator !in outer[i] { assert IsName(outer[i]); }
    forall i | 0 <= i < |inner| ensures Separator !in inner[i] { assert IsName(inner[i]); }
    var lead: string := if rooted then [Separator] else "";
    if |outer| == 0 {
      if |inner| > 0 {
        // The first name of `inner` rules out both "//" and "./" as a start.
        var h := inner[0];
        assert IsName(h);
        JoinStartsWith(inner, Separator);
        assert Join(inner, Separator)[..|h|] == h;
        if rooted {
          assert Render(inner, rooted)[1] == h[0] && h[0] in h;
        } else if |h| == 1 {
          assert h == [h[0]];
          assert Render(inner, rooted)[0] == h[0] != '.';
        } else {
          assert Render(inner, rooted)[1] == h[1] && h[1] in h;
        }
      }
    } else if |inner| == 0 {
      JoinStartsWith(outer, Separator);
      assert IsName(outer[0]);
      assert |Render(outer, rooted) + [Separator]| >= 2;
    } else {
      JoinPrefixIff(outer, inner);
      assert Render(inner, rooted) == lead + Join(inner, Separator);
      assert Render(outer, rooted) + [Separator] == lead + (Join(outer, Separator) + [Separator]);
      PrefixAfterLead(lead, Join(inner, Separator), Join(outer, Separator) + [Separator]);
    }
  }

  lemma PrefixAfterLead(lead: string, s: string, p: string)
    ensures HasPrefix(lead + s, lead + p) <==> HasPrefix(s, p)
  {
    if HasPrefix(lead + s, lead + p) {
      assert s[..|p|] == (lead + s)[|lead|..|lead| + |p|];
    }
    if HasPrefix(s, p) {
      assert (lead + s)[..|lead + p|] == lead + s[..|p|];
    }
  }

  /**
   * What Unzip's test means: joining `name` onto a non-empty `dest` passes
   * exactly when the resolved destination has at least one segment and the
   * resolved joined path extends it by at least one more.
   */
  lemma WithinIff(dest: string, name: string)
    requires dest != ""
    ensures Within(JoinPath([dest, name]), dest) <==>
              |Lexical(dest)| > 0 && StrictlyBelow(Lexical(JoinPath([dest, name])), Lexical(dest))
  {
    var joined := JoinPath([dest, name]);
    JoinTwo(dest, name);
    CleanIdempotent(dest);
    LexicalResolved(dest);
    ResolveFromResolved(Lexical(dest), Split(name, Separator), IsRooted(dest));
    assert joined == Clean(Join([dest, name], Separator));
    CleanIdempotent(Join([dest, name], Separator));
    RenderPrefixIff(Lexical(dest), Lexical(joined), IsRooted(dest));
  }
}

=== FILE: results.dfy ===
/** Option and Result: the model's stand-ins for Go's `(value, error)` returns. */
module Results {

  datatype Option<+T> = None | Some(value: T)

  /** `Ok(v)` is a nil error with value `v`; `Err(e)` is a non-nil error. */
  datatype Result<+T, +E> = Ok(value: T) | Err(error: E)
}

=== FILE: sources.dfy ===
/**
 * The compiled-in download table and the decision part of Install: whether
 * to do anything at all, which template applies, how the URL is filled in,
 * and which extractor and temporary-file pattern the URL's suffix selects.
 */
module Sources {
  import opened Results
  import opened Text

  /**
   * A URL template cut at its `%s` verbs: the pieces that surround the
   * arguments, so `["a", "b", "c"]` stands for `"a%sb%sc"`.
   */
  type Template = seq<string>

  /** fmt.Sprintf with exactly as many string arguments as the template has verbs. */
  function Fill(t: Template, args: seq<string>): string
    requires |t| == |args| + 1
    decreases |args|
  {
    if |args| == 0 then t[0]
    else t[0] + args[0] + Fill(t[1..], args[1..])
  }

  /** Filling a one-verb template. */
  lemma FillOne(p0: string, p1: string, a: string)
    ensures Fill([p0, p1], [a]) == p0 + a + p1
  {
    assert [p0, p1][1..] == [p1] && [a][1..] == [];
  }

  /** Filling a two-verb template. */
  lemma FillTwo(p0: string, p1: string, p2: string, a: string, b: string)
    ensures Fill([p0, p1, p2], [a, b]) == p0 + a + p1 + b + p2
  {
    assert [p0, p1, p2][1..] == [p1, p2] && [a, b][1..] == [b];
    FillOne(p1, p2, b);
  }

  /** Filling a three-verb template. */
  lemma FillThree(p0: string, p1: string, p2: string, p3: string, a: string, b: string, c: string)
    ensures Fill([p0, p1, p2, p3], [a, b, c]) == p0 + a + p1 + b + p2 + c + p3
  {
    assert [p0, p1, p2, p3][1..] == [p1, p2, p3] && [a, b, c][1..] == [b, c];
    FillTwo(p1, p2, p3, b, c);
  }

  /** Language, then operating system (GOOS), to URL template. */
  const DownloadSources: map<string, map<string, Template>> := map[
    "go" := map[
      "linux" := ["https://go.dev/dl/go", ".", "-", ".tar.gz"],
      "darwin" := ["https://go.dev/dl/go", ".", "-", ".tar.gz"],
      "windows" := ["https://go.dev/dl/go", ".", "-", ".zip"]
    ],
    "python" := map[
      "windows" := ["https://www.python.org/ftp/python/", "/python-", "-embed-amd64.zip"]
    ]
  ]

  /** The two archive readers Install can hand the download to. */
  datatype Extractor = Unzip | Untar

  datatype InstallPlan =
    | AlreadyInstalled
    | Download(url: string, tempPattern: string, extractor: Extractor)

  datatype PlanError = UnsupportedLanguage(lang: string) | UnsupportedOS(goos: string, lang: string)

  /** A URL ending in ".tar.gz" does not end in ".zip". */
  lemma TarGzIsNotZip(url: string)
    requires HasSuffix(url, ".tar.gz")
    ensures !HasSuffix(url, ".zip")
  {
    assert url[|url| - 4..] == ".tar.gz"[3..];
  }

  /** `.zip` goes to Unzip; every other URL, `.tar.gz` or not, goes to Untar. */
  function ExtractorFor(url: string): (e: Extractor)
    ensures e == Unzip ==> HasSuffix(url, ".zip")
    ensures HasSuffix(url, ".tar.gz") ==> e == Untar
  {
    if HasSuffix(url, ".zip") then
      assert !HasSuffix(url, ".tar.gz") by {
        if HasSuffix(url, ".tar.gz") { TarGzIsNotZip(url); }
      }
      Unzip
    else Untar
  }

  /**
   * The pattern handed to os.CreateTemp: "*.zip", "*.tar.gz", or ".tmp" for
   * anything else. The ".zip" test is the one that later picks the
   * extractor, so a "*.zip" file is exactly one that goes to Unzip.
   */
  function TempPatternFor(url: string): (p: string)
    ensures p == "*.zip" <==> ExtractorFor(url) == Unzip
    ensures p == "*.tar.gz" <==> HasSuffix(url, ".tar.gz")
    ensures p == ".tmp" <==> ExtractorFor(url) == Untar && !HasSuffix(url, ".tar.gz")
  {
    if HasSuffix(url, ".zip") then
      assert !HasSuffix(url, ".tar.gz") by {
        if HasSuffix(url, ".tar.gz") { TarGzIsNotZip(url); }
      }
      "*.zip"
    else if HasSuffix(url, ".tar.gz") then "*.tar.gz"
    else ".tmp"
  }

  /** The arguments Sprintf receives: Go URLs name OS and architecture, the others repeat the version. */
  function UrlArgs(lang: string, version: string, goos: string, goarch: string): seq<string> {
    if lang == "go" then [version, goos, goarch] else [version, version]
  }

  /** Every template has one more piece than its language passes arguments. */
  lemma TemplatesMatchArguments(lang: string, goos: string, version: string, goarch: string)
    requires lang in DownloadSources && goos in DownloadSources[lang]
    ensures |DownloadSources[lang][goos]| == |UrlArgs(lang, version, goos, goarch)| + 1
  {
  }

  /**
   * The decision Install makes before any I/O. `present` is true when
   * stat of the install path did not report "does not exist".
   */
  function PlanInstall(present: bool, lang: string, version: string, goos: string, goarch: string)
    : (r: Result<InstallPlan, PlanError>)
    ensures present ==> r == Ok(AlreadyInstalled)
    ensures !present && lang !in DownloadSources ==> r == Err(UnsupportedLanguage(lang))
    ensures (!present && lang in DownloadSources && goos !in DownloadSources[lang]) ==>
              r == Err(UnsupportedOS(goos, lang))
    ensures r.Ok? && r.value.Download? ==>
              && !present && lang in DownloadSources && goos in DownloadSources[lang]
              && r.value.extractor == ExtractorFor(r.value.url)
              && r.value.tempPattern == TempPatternFor(r.value.url)
  {
    if present then Ok(AlreadyInstalled)
    else if lang !in DownloadSources then Err(UnsupportedLanguage(lang))
    else if goos !in DownloadSources[lang] then Err(UnsupportedOS(goos, lang))
    else
      var t := DownloadSources[lang][goos];
      TemplatesMatchArguments(lang, goos, version, goarch);
      var url := Fill(t, UrlArgs(lang, version, goos, goarch));
      Ok(Download(url, TempPatternFor(url), ExtractorFor(url)))
  }

  /** A download is planned exactly when nothing is present and the table has a template for the language on this OS. */
  lemma PlanDownloadIff(present: bool, lang: string, version: string, goos: string, goarch: string)
    ensures PlanInstall(present, lang, version, goos, goarch).Ok?
            <==> present || (lang in DownloadSources && goos in DownloadSources[lang])
    ensures (PlanInstall(present, lang, version, goos, goarch).Ok? &&
             PlanInstall(present, lang, version, goos, goarch).value.Download?)
            <==> !present && lang in DownloadSources && goos in DownloadSources[lang]
  {
  }

  lemma EndsWith(x: string, y: string)
    ensures HasSuffix(x + y, y)
  {
    assert (x + y)[|x + y| - |y|..] == y;
  }

  /** The Go URL names version, OS and architecture in that order, and ends in the archive's extension. */
  lemma GoUrl(version: string, goos: string, goarch: string)
    requires goos in DownloadSources["go"]
    ensures PlanInstall(false, "go", version, goos, goarch).Ok?
    ensures PlanInstall(false, "go", version, goos, goarch).value.url
            == "https://go.dev/dl/go" + version + "." + goos + "-" + goarch
               + (if goos == "windows" then ".zip" else ".tar.gz")
  {
    var t := DownloadSources["go"][goos];
    FillThree(t[0], t[1], t[2], t[3], version, goos, goarch);
    assert [t[0], t[1], t[2], t[3]] == t;
  }

  /** The Python URL repeats the version: once as the directory, once in the file name. */
  lemma PythonUrl(version: string, goarch: string)
    ensures PlanInstall(false, "python", version, "windows", goarch).Ok?
    ensures PlanInstall(false, "python", version, "windows", goarch).value.url
            == "https://www.python.org/ftp/python/" + version + "/python-" + version + "-embed-amd64.zip"
  {
    var t := DownloadSources["python"]["windows"];
    FillTwo(t[0], t[1], t[2], version, version);
    assert [t[0], t[1], t[2]] == t;
  }

  /** A URL ending in ".zip" is unzipped from a "*.zip" temporary file. */
  lemma ZipSuffix(stem: string)
    ensures ExtractorFor(stem + ".zip") == Unzip
    ensures TempPatternFor(stem + ".zip") == "*.zip"
  {
    EndsWith(stem, ".zip");
  }

  /** A URL ending in ".tar.gz" is untarred from a "*.tar.gz" temporary file. */
  lemma TarGzSuffix(stem: string)
    ensures ExtractorFor(stem + ".tar.gz") == Untar
    ensures TempPatternFor(stem + ".tar.gz") == "*.tar.gz"
  {
    var url := stem + ".tar.gz";
    EndsWith(stem, ".tar.gz");
    assert url[|url| - 4..] == "r.gz";
  }

  /** In the table only the Windows templates name a zip archive, so only Windows installs go to Unzip. */
  lemma OnlyWindowsUnzips(lang: string, version: string, goos: string, goarch: string)
    requires lang in DownloadSources && goos in DownloadSources[lang]
    ensures PlanInstall(false, lang, version, goos, goarch).Ok?
    ensures PlanInstall(false, lang, version, goos, goarch).value.extractor == Unzip <==> goos == "windows"
    ensures PlanInstall(false, lang, version, goos, goarch).value.tempPattern
            == (if goos == "windows" then "*.zip" else "*.tar.gz")
  {
    if lang == "go" {
      GoUrl(version, goos, goarch);
      var stem := "https://go.dev/dl/go" + version + "." + goos + "-" + goarch;
      if goos == "windows" {
        ZipSuffix(stem);
      } else {
        TarGzSuffix(stem);
      }
    } else {
      PythonUrl(version, goarch);
      ZipSuffix("https://www.python.org/ftp/python/" + version + "/python-" + version + "-embed-amd64");
    }
  }

  /** Python has a template for Windows only: on any other OS the install fails before any download. */
  lemma PythonOnlyOnWindows(version: string, goos: string, goarch: string)
    requires goos != "windows"
    ensures PlanInstall(false, "python", version, goos, goarch) == Err(UnsupportedOS(goos, "python"))
  {
  }
}

=== FILE: store.dfy ===
/**
 * ListVersions: the installed versions of a language are the names of the
 * directories in `<base>/versions/<lang>`. The directory listing is a
 * parameter, in the order os.ReadDir returns it.
 */
module Store {
  import opened Results

  datatype DirEntry = DirEntry(name: string, isDir: bool)

  /** What os.ReadDir reports: the directory does not exist, cannot be read, or lists these entries. */
  datatype Listing = NotExist | Unreadable | Entries(entries: seq<DirEntry>)

  datatype StoreError = ReadDirFailed

  /** The loop of ListVersions: names of directory entries, in listing order; files are skipped. */
  function DirNames(entries: seq<DirEntry>): (names: seq<string>)
    ensures |names| <= |entries|
    ensures forall n :: n in names <==> exists i :: 0 <= i < |entries| && entries[i].isDir && entries[i].name == n
    decreases |entries|
  {
    if |entries| == 0 then []
    else
      var rest := DirNames(entries[1..]);
      assert forall i :: 1 <= i < |entries| ==> entries[i] == entries[1..][i - 1];
      assert forall i :: 0 <= i < |entries[1..]| ==> entries[1..][i] == entries[i + 1];
      if entries[0].isDir then [entries[0].name] + rest else rest
  }

  function ListVersions(listing: Listing): (r: Result<seq<string>, StoreError>)
    ensures listing.NotExist? ==> r == Ok([])
    ensures listing.Unreadable? ==> r == Err(ReadDirFailed)
    ensures listing.Entries? ==> r.Ok? && |r.value| <= |listing.entries|
    ensures listing.Entries? ==> r == Ok(DirNames(listing.entries))
  {
    match listing
    case NotExist => Ok([])
    case Unreadable => Err(ReadDirFailed)
    case Entries(entries) => Ok(DirNames(entries))
  }

  /** The listing is read entry by entry: the names for `a + b` are those for `a`, then for `b`. */
  lemma {:induction false} DirNamesAppend(a: seq<DirEntry>, b: seq<DirEntry>)
    ensures DirNames(a + b) == DirNames(a) + DirNames(b)
    decreases |a|
  {
    if |a| == 0 {
      assert a + b == b;
    } else {
      assert (a + b)[0] == a[0];
      assert (a + b)[1..] == a[1..] + b;
      DirNamesAppend(a[1..], b);
    }
  }

  /** When every entry is a directory, every name is listed, in the same order. */
  lemma {:induction false} DirNamesAllDirs(entries: seq<DirEntry>)
    requires forall i :: 0 <= i < |entries| ==> entries[i].isDir
    ensures |DirNames(entries)| == |entries|
    ensures forall i :: 0 <= i < |entries| ==> DirNames(entries)[i] == entries[i].name
    decreases |entries|
  {
    if |entries| > 0 {
      assert forall i :: 0 <= i < |entries[1..]| ==> entries[1..][i] == entries[i + 1];
      DirNamesAllDirs(entries[1..]);
    }
  }

  /** A listing with no directories lists no versions. */
  lemma {:induction false} DirNamesNoDirs(entries: seq<DirEntry>)
    requires forall i :: 0 <= i < |entries| ==> !entries[i].isDir
    ensures DirNames(entries) == []
    decreases |entries|
  {
    if |entries| > 0 {
      assert forall i :: 0 <= i < |entries[1..]| ==> entries[1..][i] == entries[i + 1];
      DirNamesNoDirs(entries[1..]);
    }
  }
}

=== FILE: text.dfy ===
/**
 * The handful of string operations the version manager relies on
 * (Go's strings.HasPrefix, HasSuffix, Contains, Split and Join), over
 * `string` as a sequence of characters.
 */
module Text {

  /** strings.HasPrefix: `p` is an initial piece of `s`. */
  predicate HasPrefix(s: string, p: string) {
    |p| <= |s| && s[..|p|] == p
  }

  /** strings.HasSuffix: `x` is a final piece of `s`. */
  predicate HasSuffix(s: string, x: string) {
    |x| <= |s| && s[|s| - |x|..] == x
  }

  /** strings.Contains: `sub` occurs at some position of `s` (the empty string occurs everywhere). */
  predicate Contains(s: string, sub: string)
    decreases |s|
  {
    HasPrefix(s, sub) || (|s| > 0 && Contains(s[1..], sub))
  }

  /** strings.Split with a one-character separator: the pieces between separators, at least one. */
  function Split(s: string, sep: char): (pieces: seq<string>)
    ensures |pieces| >= 1
    ensures forall i :: 0 <= i < |pieces| ==> sep !in pieces[i]
    decreases |s|
  {
    if |s| == 0 then [""]
    else if s[0] == sep then [""] + Split(s[1..], sep)
    else
      var rest := Split(s[1..], sep);
      [[s[0]] + rest[0]] + rest[1..]
  }

  /** strings.Join with a one-character separator. */
  function Join(parts: seq<string>, sep: char): string
    decreases |parts|
  {
    if |parts| == 0 then ""
    else if |parts| == 1 then parts[0]
    else parts[0] + [sep] + Join(parts[1..], sep)
  }

  /** A joined list starts with its first part, followed by the separator when more parts follow. */
  lemma JoinStartsWith(parts: seq<string>, sep: char)
    requires |parts| >= 1
    ensures HasPrefix(Join(parts, sep), parts[0])
    ensures |parts| > 1 ==> HasPrefix(Join(parts, sep), parts[0] + [sep])
  {
    var j := Join(parts, sep);
    if |parts| > 1 {
      assert j == (parts[0] + [sep]) + Join(parts[1..], sep);
      assert j[..|parts[0]| + 1] == parts[0] + [sep];
      assert j[..|parts[0]|] == parts[0];
    } else {
      assert j == parts[0];
    }
  }

  /** A string that contains the separator nowhere is one piece. */
  lemma SplitWithoutSeparator(s: string, sep: char)
    requires sep !in s
    ensures Split(s, sep) == [s]
    decreases |s|
  {
    if |s| > 0 {
      assert s[0] != sep;
      assert sep !in s[1..];
      SplitWithoutSeparator(s[1..], sep);
      var rest := Split(s[1..], sep);
      assert rest[0] == s[1..] && rest[1..] == [];
      assert [s[0]] + s[1..] == s;
    }
  }

  /** Split on a string given by its first character. */
  lemma SplitCons(c: char, s: string, sep: char)
    ensures Split([c] + s, sep)
         == if c == sep then [""] + Split(s, sep) else [[c] + Split(s, sep)[0]] + Split(s, sep)[1..]
  {
    assert ([c] + s)[0] == c;
    assert ([c] + s)[1..] == s;
  }

  /** Splitting at one separator splits the two sides independently. */
  lemma {:induction false} SplitAtSeparator(a: string, b: string, sep: char)
    ensures Split(a + [sep] + b, sep) == Split(a, sep) + Split(b, sep)
    decreases |a|
  {
    if |a| == 0 {
      assert a + [sep] + b == [sep] + b;
      SplitCons(sep, b, sep);
    } else {
      SplitAtSeparator(a[1..], b, sep);
      if a[0] == sep {
        SplitAtSeparatorLeadingSep(a, b, sep);
      } else {
        SplitAtSeparatorLeadingChar(a, b, sep);
      }
    }
  }

  /** The step of SplitAtSeparator when `a` starts with the separator. */
  lemma SplitAtSeparatorLeadingSep(a: string, b: string, sep: char)
    requires |a| > 0 && a[0] == sep
    requires Split(a[1..] + [sep] + b, sep) == Split(a[1..], sep) + Split(b, sep)
    ensures Split(a + [sep] + b, sep) == Split(a, sep) + Split(b, sep)
  {
    var s := a + [sep] + b;
    assert s[0] == sep;
    assert s[1..] == a[1..] + [sep] + b;
    var r := Split(a[1..], sep);
    var sb := Split(b, sep);
    assert [""] + (r + sb) == ([""] + r) + sb;
  }

  /** The step of SplitAtSeparator when `a` starts with another character. */
  lemma SplitAtSeparatorLeadingChar(a: string, b: string, sep: char)
    requires |a| > 0 && a[0] != sep
    requires Split(a[1..] + [sep] + b, sep) == Split(a[1..], sep) + Split(b, sep)
    ensures Split(a + [sep] + b, sep) == Split(a, sep) + Split(b, sep)
  {
    var s := a + [sep] + b;
    assert s[0] == a[0] && s[1..] == a[1..] + [sep] + b;
    SplitLeadingChar(s, sep);
    SplitLeadingChar(a, sep);
    ExtendFirstAppend(a[0], Split(a[1..], sep), Split(b, sep));
  }

  /** Split of a string that starts with another character than the separator: that character joins the first piece. */
  lemma SplitLeadingChar(s: string, sep: char)
    requires |s| > 0 && s[0] != sep
    ensures Split(s, sep) == [[s[0]] + Split(s[1..], sep)[0]] + Split(s[1..], sep)[1..]
  {
  }

  /** Putting a character in front of the first piece commutes with appending more pieces. */
  lemma ExtendFirstAppend(c: char, p: seq<string>, q: seq<string>)
    requires |p| >= 1
    ensures [[c] + (p + q)[0]] + (p + q)[1..] == ([[c] + p[0]] + p[1..]) + q
  {
    assert (p + q)[0] == p[0];
    assert (p + q)[1..] == p[1..] + q;
  }

  /** Join undoes Split: the pieces and separators put back together are the original string. */
  lemma {:induction false} JoinSplit(s: string, sep: char)
    ensures Join(Split(s, sep), sep) == s
    decreases |s|
  {
    if |s| > 0 {
      var rest := Split(s[1..], sep);
      JoinSplit(s[1..], sep);
      if s[0] == sep {
        assert Split(s, sep) == [""] + rest;
        assert ([""] + rest)[1..] == rest;
        assert s == [sep] + s[1..];
      } else {
        var pieces := Split(s, sep);
        assert pieces[0] == [s[0]] + rest[0];
        assert pieces[1..] == rest[1..];
        if |rest| == 1 {
          assert s == [s[0]] + rest[0];
        } else {
          assert Join(rest, sep) == rest[0] + [sep] + Join(rest[1..], sep);
          assert s == [s[0]] + s[1..];
        }
      }
    }
  }

  /** Split undoes Join when no part contains the separator. */
  lemma {:induction false} SplitJoin(parts: seq<string>, sep: char)
    requires |parts| >= 1
    requires forall i :: 0 <= i < |parts| ==> sep !in parts[i]
    ensures Split(Join(parts, sep), sep) == parts
    decreases |parts|
  {
    SplitWithoutSeparator(parts[0], sep);
    if |parts| > 1 {
      SplitJoin(parts[1..], sep);
      SplitAtSeparator(parts[0], Join(parts[1..], sep), sep);
      assert [parts[0]] + parts[1..] == parts;
    }
  }
}

=== FILE: use.dfy ===
/**
 * GenerateUseCommand: the text of a shell statement that puts one installed
 * version's binary directory first on PATH and removes every entry that
 * mentions the base directory. The PATH value, the OS and the home
 * directory are parameters.
 */
module Use {
  import opened Results
  import opened Text
  import opened Paths
  import opened Layout

  datatype UseError = NotInstalled(lang: string, version: string) | UnrecognizedLanguage(lang: string)

  /** The directory whose programs the version provides: `<vp>/go/bin` for Go, `<vp>` itself for Python. */
  function BinPath(lang: string, versionPath: string): (r: Result<string, UseError>)
    ensures r.Ok? <==> lang == "go" || lang == "python"
    ensures r.Err? ==> r == Err(UnrecognizedLanguage(lang))
    ensures lang == "go" && versionPath != "" ==>
              && IsRooted(r.value) == IsRooted(versionPath)
              && Lexical(r.value) == Lexical(versionPath) + ["go", "bin"]
    ensures lang == "python" ==> r == Ok(versionPath)
  {
    if lang == "go" then
      var bin := JoinPath([versionPath, "go", "bin"]);
      if versionPath != "" then
        GoBinSegments(versionPath);
        Ok(bin)
      else
        Ok(bin)
    else if lang == "python" then Ok(versionPath)
    else Err(UnrecognizedLanguage(lang))
  }

  /** Joining "go" and "bin" onto a non-empty directory appends those two segments to the directory's. */
  lemma GoBinSegments(dir: string)
    requires dir != ""
    ensures IsRooted(JoinPath([dir, "go", "bin"])) == IsRooted(dir)
    ensures Lexical(JoinPath([dir, "go", "bin"])) == Lexical(dir) + ["go", "bin"]
  {
    var rooted := IsRooted(dir);
    var s := Lexical(dir);
    JoinThree(dir, "go", "bin");
    SplitWithoutSeparator("go", Separator);
    SplitWithoutSeparator("bin", Separator);
    assert ["go"] + ["bin"] == ["go", "bin"];
    assert Step(s, "go", rooted) == s + ["go"];
    assert Step(s + ["go"], "bin", rooted) == s + ["go", "bin"];
    assert ["go", "bin"][1..] == ["bin"] && ["bin"][1..] == [];
  }

  /** filepath.SplitList: the empty PATH has no entries; otherwise the pieces between separators. */
  function SplitList(path: string, sep: char): (parts: seq<string>)
    ensures path == "" ==> parts == []
    ensures forall i :: 0 <= i < |parts| ==> sep !in parts[i]
    ensures path != "" ==> |parts| >= 1 && Join(parts, sep) == path
  {
    if path == "" then []
    else
      JoinSplit(path, sep);
      Split(path, sep)
  }

  /** An entry survives when it is not empty and does not mention the base directory. */
  predicate Kept(part: string, baseDir: string) {
    part != "" && !Contains(part, baseDir)
  }

  /** The loop over the old PATH entries: the surviving ones, in their order. */
  function KeepUnmanaged(parts: seq<string>, baseDir: string): (kept: seq<string>)
    ensures |kept| <= |parts|
    ensures forall i :: 0 <= i < |kept| ==> Kept(kept[i], baseDir)
    ensures forall x :: x in kept <==> x in parts && Kept(x, baseDir)
    decreases |parts|
  {
    if |parts| == 0 then []
    else
      var rest := KeepUnmanaged(parts[1..], baseDir);
      assert forall x :: x in parts <==> x == parts[0] || x in parts[1..];
      if Kept(parts[0], baseDir) then [parts[0]] + rest else rest
  }

  /**
   * The new PATH entries: the binary directory first, then only surviving
   * old entries, each of them an old entry, in their old order.
   */
  function ComposeParts(bin: string, parts: seq<string>, baseDir: string): (r: seq<string>)
    ensures |r| >= 1 && r[0] == bin
    ensures forall i :: 1 <= i < |r| ==> Kept(r[i], baseDir)
    ensures forall x :: x in r[1..] <==> x in parts && Kept(x, baseDir)
    ensures IsSubsequence(r[1..], parts)
  {
    var kept := KeepUnmanaged(parts, baseDir);
    KeepIsSubsequence(parts, baseDir);
    assert ([bin] + kept)[1..] == kept;
    [bin] + kept
  }

  /**
   * The PATH value the emitted statement assigns. It starts with the binary
   * directory, and when that directory is one list entry, reading the value
   * back as a list gives the composed entries.
   */
  function ComposePath(bin: string, pathEnv: string, baseDir: string, windows: bool): (r: string)
    ensures HasPrefix(r, bin)
    ensures bin != "" && ListSeparator(windows) !in bin ==>
              SplitList(r, ListSeparator(windows))
              == ComposeParts(bin, SplitList(pathEnv, ListSeparator(windows)), baseDir)
  {
    var sep := ListSeparator(windows);
    var parts := SplitList(pathEnv, sep);
    var composed := ComposeParts(bin, parts, baseDir);
    var r := Join(composed, sep);
    JoinStartsWith(composed, sep);
    if bin != "" && sep !in bin then
      SplitComposed(bin, parts, baseDir, sep);
      r
    else
      r
  }

  /** What precedes the quoted PATH value: a PowerShell assignment on Windows, a POSIX export elsewhere. */
  function ShellLead(windows: bool): string {
    if windows then "$env:PATH = \"" else "export PATH=\""
  }

  /** The statement that assigns `path` to PATH, with `path` in double quotes and nothing escaped. */
  function ShellCommand(path: string, windows: bool): (cmd: string)
    ensures AssignedPath(cmd, windows) == Some(path)
  {
    var cmd := ShellLead(windows) + path + "\"";
    assert cmd[..|ShellLead(windows)|] == ShellLead(windows);
    assert cmd[|ShellLead(windows)|..|cmd| - 1] == path;
    cmd
  }

  /**
   * The text between the quotes of a statement of that shape, read as it
   * stands: no quote removal, escapes or expansion as a shell would do.
   */
  function AssignedPath(cmd: string, windows: bool): Option<string> {
    var lead := ShellLead(windows);
    if |cmd| > |lead| && cmd[..|lead|] == lead && cmd[|cmd| - 1] == '"' then Some(cmd[|lead|..|cmd| - 1])
    else None
  }

  /**
   * GenerateUseCommand. `present` is false when stat of the version path
   * reported "does not exist"; that is checked before the language.
   */
  function GenerateUseCommand(present: bool, home: string, lang: string, version: string,
                              pathEnv: string, windows: bool): (r: Result<string, UseError>)
    ensures !present ==> r == Err(NotInstalled(lang, version))
    ensures present && lang != "go" && lang != "python" ==> r == Err(UnrecognizedLanguage(lang))
    ensures r.Ok? <==> present && (lang == "go" || lang == "python")
    ensures r.Ok? ==>
              AssignedPath(r.value, windows)
              == Some(ComposePath(BinPath(lang, VersionPath(home, lang, version)).value, pathEnv, BaseDir(home), windows))
  {
    var versionPath := VersionPath(home, lang, version);
    if !present then Err(NotInstalled(lang, version))
    else
      match BinPath(lang, versionPath)
      case Err(e) => Err(e)
      case Ok(bin) => Ok(ShellCommand(ComposePath(bin, pathEnv, BaseDir(home), windows), windows))
  }

  // ---------------------------------------------------------------------
  // The filter

  /** The filter treats entries one at a time: filtering `a + b` filters `a`, then `b`. */
  lemma {:induction false} KeepAppend(a: seq<string>, b: seq<string>, baseDir: string)
    ensures KeepUnmanaged(a + b, baseDir) == KeepUnmanaged(a, baseDir) + KeepUnmanaged(b, baseDir)
    decreases |a|
  {
    if |a| == 0 {
      assert a + b == b;
    } else {
      assert (a + b)[0] == a[0];
      assert (a + b)[1..] == a[1..] + b;
      KeepAppend(a[1..], b, baseDir);
    }
  }

  /** Entries that all survive are kept as they are. */
  lemma {:induction false} KeepAllKept(parts: seq<string>, baseDir: string)
    requires forall i :: 0 <= i < |parts| ==> Kept(parts[i], baseDir)
    ensures KeepUnmanaged(parts, baseDir) == parts
    decreases |parts|
  {
    if |parts| > 0 {
      assert Kept(parts[0], baseDir);
      assert forall i :: 0 <= i < |parts[1..]| ==> parts[1..][i] == parts[i + 1];
      KeepAllKept(parts[1..], baseDir);
      assert [parts[0]] + parts[1..] == parts;
    }
  }

  /** Filtering twice is filtering once. */
  lemma KeepIdempotent(parts: seq<string>, baseDir: string)
    ensures KeepUnmanaged(KeepUnmanaged(parts, baseDir), baseDir) == KeepUnmanaged(parts, baseDir)
  {
    KeepAllKept(KeepUnmanaged(parts, baseDir), baseDir);
  }

  /** The filtered entries are an order-preserving selection: an in-order sub-sequence of the original. */
  lemma {:induction false} KeepIsSubsequence(parts: seq<string>, baseDir: string)
    ensures IsSubsequence(KeepUnmanaged(parts, baseDir), parts)
    decreases |parts|
  {
    if |parts| > 0 {
      KeepIsSubsequence(parts[1..], baseDir);
    }
  }

  /** `a` can be had from `b` by deleting entries. */
  predicate IsSubsequence(a: seq<string>, b: seq<string>)
    decreases |b|
  {
    if |a| == 0 then true
    else if |b| == 0 then false
    else if a[0] == b[0] then IsSubsequence(a[1..], b[1..])
    else IsSubsequence(a, b[1..])
  }

  /**
   * Composing onto a composed PATH replaces the managed entry: when the old
   * binary directory mentions the base directory, it is dropped, and the
   * rest is filtered as before. With the same binary directory this is
   * idempotence.
   */
  lemma ComposeReplaces(previous: string, bin: string, parts: seq<string>, baseDir: string)
    requires Contains(previous, baseDir)
    ensures ComposeParts(bin, ComposeParts(previous, parts, baseDir), baseDir) == ComposeParts(bin, parts, baseDir)
  {
    var kept := KeepUnmanaged(parts, baseDir);
    KeepAppend([previous], kept, baseDir);
    assert [previous][1..] == [];
    assert KeepUnmanaged([previous], baseDir) == [];
    KeepIdempotent(parts, baseDir);
  }

  // ---------------------------------------------------------------------
  // The emitted statement, read back

  /** Reading back the PATH that was emitted gives the composed entries, when the binary directory is a single entry. */
  lemma SplitComposed(bin: string, parts: seq<string>, baseDir: string, sep: char)
    requires bin != "" && sep !in bin
    requires forall i :: 0 <= i < |parts| ==> sep !in parts[i]
    ensures SplitList(Join(ComposeParts(bin, parts, baseDir), sep), sep) == ComposeParts(bin, parts, baseDir)
  {
    var composed := ComposeParts(bin, parts, baseDir);
    var kept := KeepUnmanaged(parts, baseDir);
    forall i | 0 <= i < |composed| ensures sep !in composed[i] {
      if i > 0 {
        assert composed[i] == kept[i - 1];
        assert kept[i - 1] in parts;
      }
    }
    SplitJoin(composed, sep);
  }

  /**
   * `use` is stable: taking the PATH text the emitted statement assigns,
   * exactly as it stands between the quotes, and asking again for the same
   * version emits the same statement. This needs the binary directory to lie
   * under the base directory (no ".." in the language or version) and to be
   * a single PATH entry (no list separator in home, language or version).
   */
  lemma UseIsStable(present: bool, home: string, lang: string, version: string, pathEnv: string, windows: bool)
    requires home != ""
    requires NoParentSegment(lang) && NoParentSegment(version)
    requires ListSeparator(windows) !in home && ListSeparator(windows) !in lang && ListSeparator(windows) !in version
    requires present && (lang == "go" || lang == "python")
    ensures var cmd := GenerateUseCommand(present, home, lang, version, pathEnv, windows).value;
            && AssignedPath(cmd, windows).Some?
            && GenerateUseCommand(present, home, lang, version, AssignedPath(cmd, windows).value, windows)
               == GenerateUseCommand(present, home, lang, version, pathEnv, windows)
  {
    var vp := VersionPath(home, lang, version);
    var bin := BinPath(lang, vp).value;
    var base := BaseDir(home);
    var sep := ListSeparator(windows);
    var parts := SplitList(pathEnv, sep);
    var emitted := ComposePath(bin, pathEnv, base, windows);
    assert GenerateUseCommand(present, home, lang, version, pathEnv, windows).value == ShellCommand(emitted, windows);
    BinPathUnderBase(home, lang, version);
    VersionPathAvoids(home, lang, version, windows);
    assert SplitList(emitted, sep) == ComposeParts(bin, parts, base);
    ComposeReplaces(bin, bin, parts, base);
  }

  /** For Go and Python the binary directory is a non-empty cleaned path that mentions the base directory. */
  lemma BinPathUnderBase(home: string, lang: string, version: string)
    requires home != ""
    requires NoParentSegment(lang) && NoParentSegment(version)
    requires lang == "go" || lang == "python"
    ensures BinPath(lang, VersionPath(home, lang, version)).value != ""
    ensures Contains(BinPath(lang, VersionPath(home, lang, version)).value, BaseDir(home))
  {
    var vp := VersionPath(home, lang, version);
    var bin := BinPath(lang, vp).value;
    VersionPathBelowBase(home, lang, version);
    VersionsDirBelowBase(home);
    if lang == "go" {
      JoinPathNonEmpty([vp, "go", "bin"]);
      assert bin == Clean(Join([vp, "go", "bin"], Separator));
      CleanIdempotent(Join([vp, "go", "bin"], Separator));
    } else {
      assert vp == Clean(Join([VersionsDir(home), lang, version], Separator));
      CleanIdempotent(Join([VersionsDir(home), lang, version], Separator));
    }
    BelowBaseContainsBase(home, bin);
  }
}
